=== FILE: README.md ===
# Wallet transaction manager — a Dafny model

This project models the state logic of a small browser wallet front end. The front end
connects to a mock Ethereum wallet, shows a balance and sends transactions. Each send
goes to one or more comma-separated recipients. The wallet keeps the five most recent
transactions, and each one is settled by a timer three seconds later.

The model has four layers, one module each:

- `Web3Service` is the mock ledger. It returns a fixed address on connect. On a send it
  rejects an empty recipient or a non-positive amount, and otherwise returns a random id
  of up to 40 hexadecimal digits. Its disconnect does nothing.
- `WalletStore` is the store. It holds the address, the connection flag, the history,
  the loading flag, the last error and the balance. Every operation is a pure function
  from one session to the next, and it also returns the toast notice the operation shows.
  `sendTransaction` is split at its `await` (`BeginSend` and `FinishSend`). The deferred
  timer becomes a `Resolution` value. It carries the transaction id, the amount and the
  balance read before the ledger call. `Resolve` is the timer's body.
- `WalletRuntime` drives the store with events: connect, disconnect, send, and a timer
  firing. Pending timers may fire in any order, between any two user actions. It proves
  an invariant that every run keeps.
- `TransactionManager` is the form's submit logic: split on commas, trim, drop empties,
  and send an equal share to each recipient in turn. It also holds the address
  abbreviation and the status-to-colour map.

`Results`, `Text`, `Decimal` and `WalletTypes` are supporting modules. `Text` has
ECMAScript-style `split`/`trim` and the `slice(0, 6)...slice(-4)` abbreviation. `Decimal`
has `toFixed(4)`, modelled on exact reals.

Randomness, the clock and the outcome of each timer are parameters. A random draw in
[0, 1) is a `real`. The random hexadecimal digits are `HexDigit` sequences. `Date.now()`
is an `int`. The timer's `Math.random() > 0.3` is a `bool`.

Two checks the code does not make. The model follows the code in both:

- The address check only asks for a `0x` prefix and a length of 42. It does not ask
  for hexadecimal digits (`StoreProperties.AddressCheckAdmitsNonHex`).
- Status updates have no guard for finished transactions. A later update overwrites an
  earlier one (`StoreProperties.MapStatusLastWins`).

Two consequences of how the timer computes the balance are proved as lemmas:

- On success the timer sets the balance to the value read before the ledger call, minus
  the amount; on failure it leaves the balance as it is. So when two sends are both
  validated before either settles and both succeed, the later resolution overwrites the
  earlier deduction (`StoreProperties.SnapshotLosesEarlierDeduction`,
  `StoreProperties.LostUpdateExample`). When the later one fails instead, the earlier
  deduction stands (`StoreProperties.FailedSecondKeepsFirstDeduction`).
- A successful timer that fires after a disconnect still writes that balance into the
  disconnected session (`StoreProperties.StaleResolutionAfterDisconnect`).

## Model

| member | source | states |
|---|---|---|
| WalletTypes.StatusName | src/types/wallet.ts:1 | the three status literals `Pending`, `Success`, `Failed` |
| WalletTypes.StatusNamesDistinct | src/types/wallet.ts:1 | two statuses have the same name exactly when they are the same status |
| Decimal.ToFixed4 | src/store/walletStore.ts:122 | `toFixed(4)` gives a four-digit value within half a unit of the last digit of its input, with the same sign; a tie is rounded away from zero |
| Decimal.ToFixed4Exact | src/store/walletStore.ts:122 | a value that already has four digits is returned unchanged |
| Decimal.ToFixed4Idempotent | src/store/walletStore.ts:122 | formatting twice equals formatting once |
| Decimal.ToFixed4Range | src/store/walletStore.ts:29 | `(Math.random() * 10).toFixed(4)` lies in [0, 10] |
| Web3Service.ConnectWallet | src/services/web3Service.ts:4-8 | the mock address is a `0x`-prefixed string of 42 characters |
| Web3Service.SendTransaction | src/services/web3Service.ts:10-22 | it fails with "Invalid transaction parameters" exactly when the recipient is empty or the amount is not positive; otherwise the id is `0x` and at most 40 lower-case hexadecimal digits |
| Web3Service.DisconnectWallet | src/services/web3Service.ts:24-26 | the mock teardown always completes |
| WalletStore.Initial | src/store/walletStore.ts:15-21 | the store starts disconnected, not loading, with no history and a valid state |
| WalletStore.UpdateBalance | src/store/walletStore.ts:23-35 | an explicit value is stored as given; a mock query stores a four-digit value in [0, 10]; no other field changes |
| WalletStore.ConnectWith | src/store/walletStore.ts:37-58 | on an address the session is connected to it, the error is cleared and a fresh balance is drawn; on an error the message is recorded and shown as "Failed to connect wallet: …"; loading always ends and the history is kept |
| WalletStore.Connect | src/store/walletStore.ts:37-58 | with the mock ledger, connecting always ends connected to the mock address, with no error, not loading, and a balance in [0, 10] |
| WalletStore.DisconnectWith | src/store/walletStore.ts:60-75 | a completed teardown resets exactly address, connection, history and balance (to 0), keeps loading and error, and shows "Wallet disconnected"; a thrown error leaves the session unchanged (not even `error` is set) and shows an error notice |
| WalletStore.Disconnect | src/store/walletStore.ts:60-75 | exactly address, connection, history and balance are reset; loading and error are kept; an info notice "Wallet disconnected" is shown |
| WalletStore.IsAddressShape | src/store/walletStore.ts:82-84 | the address check: a `0x` prefix and exactly 42 characters |
| WalletStore.Validate | src/store/walletStore.ts:82-94 | a send passes exactly when the address has the shape, the amount is positive and the balance covers it; otherwise the first failing check names the error |
| WalletStore.BeginSend | src/store/walletStore.ts:79-96 | a failed check ends the send with loading off, the error recorded and "Transaction failed: …" shown; a passed check leaves the store loading and calls the ledger with the balance read now |
| WalletStore.Push | src/store/walletStore.ts:107-109 | the new entry is first, followed by the newest old entries, at most five in all |
| WalletStore.ContentHash | src/store/walletStore.ts:104 | the hash is `0x` followed by 64 lower-case hexadecimal digits |
| WalletStore.FinishSend | src/store/walletStore.ts:96-143 | a ledger id becomes a Pending entry pushed on the history and a scheduled resolution carrying the earlier balance; a ledger error is recorded and arms no timer; the balance and connection are untouched |
| WalletStore.SendTransaction | src/store/walletStore.ts:77-144 | a rejected send only sets the error and arms nothing; an accepted one clears the error, pushes a well-formed Pending entry whose id is the id the ledger returned, for this recipient, amount and time, and arms a resolution for its id with the balance before the send |
| WalletStore.MapStatus | src/store/walletStore.ts:148-150 | every entry with the id gets the new status, and every other entry and field stays as it was |
| WalletStore.UpdateTransactionStatus | src/store/walletStore.ts:146-152 | only the statuses of the entries with the id change; nothing else in the session changes |
| WalletStore.Resolve | src/store/walletStore.ts:117-132 | the entry's status becomes Success or Failed; on success the balance becomes the earlier balance minus the amount, to four digits; on failure it is kept; no other field changes |
| StoreProperties.UpdateBalanceLastWins | src/store/walletStore.ts:23-35 | an explicit balance replaces whatever an earlier update stored |
| StoreProperties.UpdateBalanceKeepsValid | src/store/walletStore.ts:23-35 | storing a non-negative balance, or drawing a mock one, keeps the session valid |
| StoreProperties.FourDigitsMinusOne | src/store/walletStore.ts:122 | `(balance - 1).toFixed(4)` of a four-digit balance is exactly the balance minus 1 |
| StoreProperties.PushAllKeepsNewest | src/store/walletStore.ts:107-109 | after any sequence of pushes the history is the five newest entries, newest first |
| StoreProperties.FiveLatestSubmissions | src/store/walletStore.ts:107-109 | after five or more sends the history is exactly the last five, in reverse order |
| StoreProperties.PushKeepsNewestFirst | src/store/walletStore.ts:101-108 | pushing an entry no older than the others keeps the history ordered newest first |
| StoreProperties.MapStatusAbsent | src/store/walletStore.ts:146-152 | updating an id that is not in the history changes nothing |
| StoreProperties.MapStatusLastWins | src/store/walletStore.ts:146-152 | there is no guard for finished transactions: the second update overrides the first |
| StoreProperties.RejectionSkipsLedger | src/store/walletStore.ts:82-94 | a send the store rejects does not depend on the ledger or the random draws and leaves the history as it was |
| StoreProperties.LedgerRejectionUnreachable | src/services/web3Service.ts:12-14 | every send the store's checks accept also passes the ledger's own check |
| StoreProperties.AddressCheckAdmitsNonHex | src/store/walletStore.ts:82-84 | `0x` followed by 40 `z` characters passes the address check |
| StoreProperties.WholeBalanceMayBeSent | src/store/walletStore.ts:91-94 | an amount equal to the balance is accepted |
| StoreProperties.ResolveIgnoresCurrentBalance | src/store/walletStore.ts:120-123 | a successful resolution sets the same balance whatever the balance is when the timer fires |
| StoreProperties.SnapshotLosesEarlierDeduction | src/store/walletStore.ts:91-123 | two sends validated before either settles: when both succeed, the final balance deducts only the second amount |
| StoreProperties.FailedSecondKeepsFirstDeduction | src/store/walletStore.ts:91-123 | two sends validated before either settles: when the first succeeds and the second fails, the balance is the earlier balance minus the first amount |
| StoreProperties.LostUpdateExample | src/store/walletStore.ts:91-123 | from a balance of 5, two successful sends of 1 end at 4 |
| StoreProperties.StaleResolutionAfterDisconnect | src/store/walletStore.ts:60-132 | a timer that fires after a disconnect writes the earlier balance minus the amount, to four digits, into the disconnected session; when the amount leaves at least 0.00005 of the earlier balance, that balance is not zero |
| StoreProperties.ConnectSendResolve | src/store/walletStore.ts:37-132 | connect, send 1 and settle: the history's head is a Pending entry for 1 that settles to the outcome, and on success the balance drops by 1 |
| WalletRuntime.Next | src/store/walletStore.ts:37-152 | each event appends exactly one notice; a fired timer is removed; a send arms at most one timer and keeps the others |
| WalletRuntime.StartInvariant | src/store/walletStore.ts:15-21 | the initial world satisfies the invariant |
| WalletRuntime.PushKeepsWellFormed | src/store/walletStore.ts:107-109 | pushing a well-formed entry on a history of well-formed entries keeps every entry well-formed |
| WalletRuntime.SendKeepsInvariant | src/store/walletStore.ts:77-144 | a send keeps the session valid and not loading, and any timer it arms has a positive amount no larger than the balance it was checked against |
| WalletRuntime.ResolveKeepsInvariant | src/store/walletStore.ts:117-132 | a timer firing keeps the session valid; the balance stays non-negative |
| WalletRuntime.NextKeepsInvariant | src/store/walletStore.ts:37-152 | every store operation keeps the session valid and not loading |
| WalletRuntime.RunKeepsInvariant | src/store/walletStore.ts:37-152 | any interleaving of user actions and timers keeps the invariant |
| WalletRuntime.RunNotifiesOncePerEvent | src/store/walletStore.ts:44-140 | every event shows exactly one notice |
| TransactionManager.TrimAll | src/components/WalletTransactionManager.tsx:47 | `.map(addr => addr.trim())` trims each part in place |
| TransactionManager.DropEmpty | src/components/WalletTransactionManager.tsx:47 | `.filter(Boolean)` returns only non-empty parts, keeps every non-empty part, returns a list without empties unchanged, and is empty exactly when all parts are |
| TransactionManager.DropEmptyOne | src/components/WalletTransactionManager.tsx:47 | a one-element list keeps its element exactly when it is not empty |
| TransactionManager.DropEmptyAppend | src/components/WalletTransactionManager.tsx:47 | the filter keeps order: filtering `a + b` gives the survivors of `a` and then those of `b` (with `DropEmptyOne`, this fixes the result for every list) |
| TransactionManager.Recipients | src/components/WalletTransactionManager.tsx:47 | every recipient is non-empty, contains no comma and has no surrounding whitespace |
| TransactionManager.RecipientsOfParts | src/components/WalletTransactionManager.tsx:47 | for any comma-free parts, the recipients of their comma-join are the parts trimmed, with empty ones dropped, in order |
| TransactionManager.RecipientsOfPart | src/components/WalletTransactionManager.tsx:47 | a field without a comma names its trim, or no one when the trim is empty |
| TransactionManager.RecipientsOfConcat | src/components/WalletTransactionManager.tsx:47 | the recipients of two comma-joined lists are those of the first followed by those of the second |
| TransactionManager.SingleRecipient | src/components/WalletTransactionManager.tsx:47 | a comma-free field with no padding names itself |
| TransactionManager.PaddedSingleRecipient | src/components/WalletTransactionManager.tsx:47 | whitespace before a single recipient is dropped |
| TransactionManager.PaddedPair | src/components/WalletTransactionManager.tsx:47 | `x, y`, with whitespace after the comma, names `x` and then `y` |
| TransactionManager.PaddedRecipients | src/components/WalletTransactionManager.tsx:47 | `"0xA, 0xB"` names `0xA` and then `0xB` |
| TransactionManager.SplitBlank | src/components/WalletTransactionManager.tsx:47 | every comma-separated part is whitespace exactly when the field holds only commas and whitespace |
| TransactionManager.RecipientsEmptyIff | src/components/WalletTransactionManager.tsx:47 | there are no recipients exactly when the field holds only commas and whitespace |
| TransactionManager.RecipientsOfJoin | src/components/WalletTransactionManager.tsx:47 | joining trimmed, non-empty, comma-free addresses with commas and parsing gives them back |
| TransactionManager.HandleSubmit | src/components/WalletTransactionManager.tsx:41-55 | an empty field or an unparsable amount does nothing; otherwise the form is reset and each recipient, in order, is sent the amount divided by their number |
| TransactionManager.Share | src/components/WalletTransactionManager.tsx:51 | each recipient's share is the amount divided by the number of recipients |
| TransactionManager.SharesMakeWhole | src/components/WalletTransactionManager.tsx:51 | `n` shares of `amount / n` add up to `amount` |
| TransactionManager.SharesSumToAmount | src/components/WalletTransactionManager.tsx:41-55 | the amounts a submit sends add up to the amount entered |
| TransactionManager.BlankFieldSendsNothing | src/components/WalletTransactionManager.tsx:44-54 | a field of only commas and whitespace sends nothing but still resets the form |
| TransactionManager.SendEach | src/components/WalletTransactionManager.tsx:50-52 | sending in turn never changes the balance; one notice per send; one timer per accepted send |
| TransactionManager.SendEachHistory | src/components/WalletTransactionManager.tsx:50-52 | when all sends are accepted, the history is the old one with each new entry pushed in turn |
| TransactionManager.SplitPlanForTwo | src/components/WalletTransactionManager.tsx:41-55 | two addresses with an amount of 2 give two sends of 1, in field order |
| TransactionManager.TwoSendsTwoEntries | src/components/WalletTransactionManager.tsx:41-55 | two sends arm two timers, and the second address's entry is on top of the first |
| TransactionManager.ShortenedAddress | src/components/WalletTransactionManager.tsx:35-38 | no address shows as empty; an address of ten characters or more shows as its first six, `...`, and its last four |
| TransactionManager.MockAddressShown | src/components/WalletTransactionManager.tsx:35-38 | the mock address shows as `0x742d...f44e` |
| TransactionManager.StatusColor | src/components/WalletTransactionManager.tsx:64-71 | an unknown status gets grey exactly when it is not one of the three names |
| TransactionManager.StatusColorsDistinct | src/components/WalletTransactionManager.tsx:64-71 | the three statuses get three different colours, none of them grey |
| Text.StartsWith | src/store/walletStore.ts:82 | `startsWith('0x')`: the string is at least as long as the prefix and begins with it |
| Text.HexString | src/store/walletStore.ts:104 | each random digit becomes one lower-case hexadecimal character, different digits giving different characters |
| Text.Take | src/store/walletStore.ts:108 | `slice(0, n)` gives the first `n` elements, or all when there are fewer |
| Text.Abbreviate | src/store/walletStore.ts:111 | `slice(0, 6) + "..." + slice(-4)`, also used at walletStore.ts:126 and in the address display |
| Text.Split | src/components/WalletTransactionManager.tsx:47 | `split(',')` gives at least one part, and no part contains the separator |
| Text.Trim | src/components/WalletTransactionManager.tsx:47 | `trim()` gives a string no longer than its input with no whitespace at either end |
| Text.TrimInfix | src/components/WalletTransactionManager.tsx:47 | `trim()` removes exactly the leading and the trailing whitespace: it keeps the run after the indentation, and everything before and after that run is whitespace |
| Text.IsWhitespace | src/components/WalletTransactionManager.tsx:47 | the characters `trim()` removes: ECMAScript's WhiteSpace (tab, vertical tab, form feed, U+FEFF and the space separators) and LineTerminator (LF, CR, U+2028, U+2029) |
| Text.TrimSkipsLeading | src/components/WalletTransactionManager.tsx:47 | leading whitespace plays no part in the trim |
| Text.AbbreviateShape | src/store/walletStore.ts:111 | `slice(0, 6) + "..." + slice(-4)` keeps the first six and last four characters |
| Text.TrimEmptyIff | src/components/WalletTransactionManager.tsx:47 | trimming gives the empty string exactly when the string is all whitespace |
| Text.TrimIdempotent | src/components/WalletTransactionManager.tsx:47 | trimming twice equals trimming once |
| Text.SplitJoin | src/components/WalletTransactionManager.tsx:47 | splitting a join of separator-free parts gives back the parts |
| Text.JoinSplit | src/components/WalletTransactionManager.tsx:47 | joining the parts of a split with the separator gives back the string |

## Left out

- Delays (the ledger's one- and two-second waits, the three-second timer) are not modelled. The timer's body is a `Resolution` that `WalletRuntime` may fire at any later point.
- Awaiting the ledger during a connect or a send is not interleaved with other events. In `WalletRuntime` each of these is one step.
- `Math.random()` and `Date.now()` are parameters. The ledger id's `toString(16).substr(2, 40)` is a sequence of 0 to 40 random hexadecimal digits rather than an IEEE double printed in base 16.
- Amounts and balances are exact reals, not IEEE doubles. The store keeps its balance as a number rather than the text `toFixed` produces, and `parseFloat` of that text is its value.
- WalletStore.UpdateBalance: the `if (newBalance)` branch is modelled on explicit values only. The store only passes it `toFixed(4)` text, which is never empty, so the empty-string fallback to a mock query is not modelled.
- TransactionManager.HandleSubmit: a NaN amount is `None`. `parseFloat`'s reading of the amount field is not modelled, and neither is `isNaN` on infinities.
- Lengths are counted in UTF-16 code units in the source and in characters here. The two agree on strings with no characters beyond U+FFFF. A field such as `0x`, 38 `a`, and an emoji is 42 units long and passes the address check in the source, but it is 41 characters here and is rejected.
- TransactionManager.SendEach: the model assumes no timer fires inside one submission. In the source each ledger call waits two seconds and each timer fires three seconds after its send, so in a batch of four or more recipients the first timer can fire before a later send reads the balance.
- The `catch` branches that log to the console, the toast position, and the zustand merge are left out. `set` is record update.
- The React rendering, dark mode, `handleChange`, the application shell and the build configuration are not part of this model.
- WalletStore.ConnectWith: the error branch is reachable only with a ledger that can fail. The mock ledger never fails, so `Connect` only uses the success branch.

=== FILE: decimal.dfy ===
/** Fixed-point text with four fractional digits, read back as a number. */
module Decimal {

  const Scale: real := 10000.0

  /** `x` is written exactly with at most four fractional digits. */
  predicate IsFixed4(x: real) {
    (x * Scale).Floor as real == x * Scale
  }

  function RoundHalfUp(y: real): (r: real)
    requires y >= 0.0
    ensures r >= 0.0 && IsFixed4(r)
    ensures -0.00005 < r - y <= 0.00005
  {
    var units := (y * Scale + 0.5).Floor;
    assert units as real * (1.0 / Scale) * Scale == units as real;
    units as real / Scale
  }

  /** `parseFloat(x.toFixed(4))` on an exact real: the nearest multiple of 0.0001, a tie rounded away from zero. */
  function ToFixed4(x: real): (r: real)
    ensures IsFixed4(r)
    ensures x >= 0.0 ==> -0.00005 < r - x <= 0.00005
    ensures x < 0.0 ==> -0.00005 <= r - x < 0.00005
    ensures x >= 0.0 ==> r >= 0.0
    ensures x <= 0.0 ==> r <= 0.0
  {
    if x < 0.0 then
      var m := RoundHalfUp(-x);
      assert (-m * Scale).Floor == -((m * Scale).Floor);
      -m
    else RoundHalfUp(x)
  }

  /** A value already written with four fractional digits is left as it is. */
  lemma ToFixed4Exact(x: real)
    requires IsFixed4(x)
    ensures ToFixed4(x) == x
  {
    var k := (x * Scale).Floor;
    if x < 0.0 {
      assert -x * Scale == (-k) as real;
      RoundHalfUpExact(-x, -k);
      assert ToFixed4(x) == -RoundHalfUp(-x);
    } else {
      RoundHalfUpExact(x, k);
    }
  }

  lemma RoundHalfUpExact(y: real, k: int)
    requires y >= 0.0 && k as real == y * Scale
    ensures RoundHalfUp(y) == y
  {
    assert (y * Scale + 0.5).Floor == k;
    assert y == k as real / Scale;
  }

  /** Rounding to four digits is idempotent. */
  lemma ToFixed4Idempotent(x: real)
    ensures ToFixed4(ToFixed4(x)) == ToFixed4(x)
  {
    ToFixed4Exact(ToFixed4(x));
  }

  /** A value in [0, 10) rounds to a value in [0, 10]: 9.99996 becomes 10.0000. */
  lemma ToFixed4Range(x: real)
    requires 0.0 <= x < 10.0
    ensures 0.0 <= ToFixed4(x) <= 10.0
  {
    var r := ToFixed4(x);
    var k := (r * Scale).Floor;
    assert k as real < 100001.0;
  }
}

=== FILE: results.dfy ===
/** Values that stand where the source uses `null` or a thrown `Error`. */
module Results {

  /** A value that may be absent (`string | null` in the source). */
  datatype Option<+T> = None | Some(value: T)

  /** A value or the message of the `Error` that replaced it. */
  datatype Result<+T> = Ok(value: T) | Err(message: string)

  /** Completion of a call that returns nothing: normal, or a thrown `Error`. */
  datatype Outcome = Pass | Fail(message: string)
}

=== FILE: store_properties.dfy ===
/** Properties of the store operations that relate several calls. */
module StoreProperties {
  import opened Results
  import opened Text
  import opened Decimal
  import opened WalletTypes
  import opened WalletStore
  import Web3Service

  /** The history after pushing `txs` one by one, oldest submission first. */
  function PushAll(history: seq<Transaction>, txs: seq<Transaction>): seq<Transaction>
    decreases |txs|
  {
    if txs == [] then history else PushAll(Push(txs[0], history), txs[1..])
  }

  /** Successive pushes keep the five newest entries, newest first, ahead of the old history. */
  lemma {:induction false} PushAllKeepsNewest(history: seq<Transaction>, txs: seq<Transaction>)
    requires |history| <= MaxHistory
    ensures PushAll(history, txs) == Take(Reverse(txs) + history, MaxHistory)
    decreases |txs|
  {
    if txs != [] {
      PushAllKeepsNewest(Push(txs[0], history), txs[1..]);
      TakeAbsorbs(Reverse(txs[1..]), [txs[0]] + history, MaxHistory);
      assert Reverse(txs) == Reverse(txs[1..]) + [txs[0]];
      assert Reverse(txs[1..]) + ([txs[0]] + history) == Reverse(txs) + history;
    }
  }

  /** After five or more submissions the history is exactly the five latest, latest first. */
  lemma FiveLatestSubmissions(history: seq<Transaction>, txs: seq<Transaction>)
    requires |history| <= MaxHistory
    requires |txs| >= MaxHistory
    ensures |PushAll(history, txs)| == MaxHistory
    ensures forall i :: 0 <= i < MaxHistory ==> PushAll(history, txs)[i] == txs[|txs| - 1 - i]
  {
    PushAllKeepsNewest(history, txs);
  }

  /** Entries are ordered from the latest timestamp to the earliest. */
  predicate NewestFirst(h: seq<Transaction>) {
    forall i, j :: 0 <= i < j < |h| ==> h[j].timestamp <= h[i].timestamp
  }

  /** A push of an entry no older than the history keeps it newest-first. */
  lemma PushKeepsNewestFirst(tx: Transaction, h: seq<Transaction>)
    requires NewestFirst(h)
    requires forall i :: 0 <= i < |h| ==> h[i].timestamp <= tx.timestamp
    ensures NewestFirst(Push(tx, h))
  {
    var r := Push(tx, h);
    forall i, j | 0 <= i < j < |r|
      ensures r[j].timestamp <= r[i].timestamp
    {
      assert r[j] == h[j - 1];
      if i > 0 {
        assert r[i] == h[i - 1];
      }
    }
  }

  /** An id that is not in the history leaves the history as it is. */
  lemma MapStatusAbsent(h: seq<Transaction>, txId: string, status: TxStatus)
    requires forall i :: 0 <= i < |h| ==> h[i].id != txId
    ensures MapStatus(h, txId, status) == h
  {
    var r := MapStatus(h, txId, status);
    assert forall i :: 0 <= i < |h| ==> r[i] == h[i];
  }

  /** An explicit balance overrides whatever the balance was set to before. */
  lemma UpdateBalanceLastWins(s: Session, first: BalanceSource, value: real)
    requires first.MockQuery? ==> 0.0 <= first.random < 1.0
    ensures UpdateBalance(UpdateBalance(s, first), Explicit(value)) == UpdateBalance(s, Explicit(value))
  {
  }

  /** Storing a non-negative balance, or drawing a mock one, keeps the session valid. */
  lemma UpdateBalanceKeepsValid(s: Session, source: BalanceSource)
    requires Valid(s)
    requires source.MockQuery? ==> 0.0 <= source.random < 1.0
    requires source.Explicit? ==> source.value >= 0.0
    ensures Valid(UpdateBalance(s, source))
  {
  }

  /** There is no terminal-state guard: the latest status written for an id is the one that stays. */
  lemma MapStatusLastWins(h: seq<Transaction>, txId: string, first: TxStatus, second: TxStatus)
    ensures MapStatus(MapStatus(h, txId, first), txId, second) == MapStatus(h, txId, second)
  {
    var a := MapStatus(MapStatus(h, txId, first), txId, second);
    var b := MapStatus(h, txId, second);
    assert forall i :: 0 <= i < |h| ==> a[i] == b[i];
  }

  /** A failed check leaves the history untouched and does not depend on anything the ledger would supply. */
  lemma RejectionSkipsLedger(s: Session, to: string, amount: real, env1: SendEnv, env2: SendEnv)
    requires |env1.hashDigits| == 64 && |env2.hashDigits| == 64
    requires Validate(to, amount, s.balance).Some?
    ensures SendTransaction(s, to, amount, env1) == SendTransaction(s, to, amount, env2)
    ensures SendTransaction(s, to, amount, env1).session.transactions == s.transactions
  {
  }

  /** Whatever passes the store's checks passes the ledger's, so its rejection cannot reach the store. */
  lemma LedgerRejectionUnreachable(to: string, amount: real, balance: real, digits: seq<HexDigit>)
    requires Validate(to, amount, balance).None?
    ensures Web3Service.SendTransaction(to, amount, digits).Ok?
  {
  }

  /** The address check admits characters that are not hexadecimal digits. */
  lemma AddressCheckAdmitsNonHex()
    ensures IsAddressShape("0xzzzzzzzzzzzzzzzzzzzzzzzzzzzzzzzzzzzzzzzz")
  {
    var a := "0xzzzzzzzzzzzzzzzzzzzzzzzzzzzzzzzzzzzzzzzz";
    assert a[0] == '0' && a[1] == 'x';
    assert a[..2] == "0x";
  }

  /** A balance equal to the amount is enough. */
  lemma WholeBalanceMayBeSent(to: string, amount: real)
    requires IsAddressShape(to) && amount > 0.0
    ensures Validate(to, amount, amount) == None
  {
  }

  /** A successful resolution computes the balance from the snapshot; the balance when the timer fires plays no part. */
  lemma ResolveIgnoresCurrentBalance(s1: Session, s2: Session, r: Resolution)
    ensures Resolve(s1, r, true).session.balance == Resolve(s2, r, true).session.balance
  {
  }

  /**
   * Two sends accepted against the same balance, both resolved as successful: the
   * second resolution overwrites the first deduction, so only the second amount is
   * taken off the balance.
   */
  lemma SnapshotLosesEarlierDeduction(s: Session, to1: string, a1: real, env1: SendEnv, to2: string, a2: real, env2: SendEnv)
    requires |env1.hashDigits| == 64 && |env2.hashDigits| == 64
    requires Validate(to1, a1, s.balance).None? && Validate(to2, a2, s.balance).None?
    ensures
      var first := SendTransaction(s, to1, a1, env1);
      var second := SendTransaction(first.session, to2, a2, env2);
      && first.timer.Some? && second.timer.Some?
      && var done1 := Resolve(second.session, first.timer.value, true);
         var done2 := Resolve(done1.session, second.timer.value, true);
         done2.session.balance == ToFixed4(s.balance - a2)
  {
    var first := SendTransaction(s, to1, a1, env1);
    var second := SendTransaction(first.session, to2, a2, env2);
    assert first.timer.Some?;
    SecondTimerSnapshot(s, to1, a1, env1, to2, a2, env2);
    var r2 := second.timer.value;
    assert r2.snapshot - r2.amount == s.balance - a2;
    LastResolutionWins(second.session, first.timer.value, r2);
  }

  lemma SecondTimerSnapshot(s: Session, to1: string, a1: real, env1: SendEnv, to2: string, a2: real, env2: SendEnv)
    requires |env1.hashDigits| == 64 && |env2.hashDigits| == 64
    requires Validate(to2, a2, s.balance).None?
    ensures
      var first := SendTransaction(s, to1, a1, env1);
      var second := SendTransaction(first.session, to2, a2, env2);
      && second.timer.Some? && second.timer.value.snapshot == s.balance && second.timer.value.amount == a2
  {
    var first := SendTransaction(s, to1, a1, env1);
    assert first.session.balance == s.balance;
  }

  /** Of two successful resolutions, the later one alone decides the balance. */
  lemma LastResolutionWins(s: Session, r1: Resolution, r2: Resolution)
    ensures Resolve(Resolve(s, r1, true).session, r2, true).session.balance == ToFixed4(r2.snapshot - r2.amount)
  {
  }

  /**
   * Two sends accepted against the same balance, the first resolved as successful and
   * the second as failed: the failure leaves the balance alone, so the first deduction stands.
   */
  lemma FailedSecondKeepsFirstDeduction(s: Session, to1: string, a1: real, env1: SendEnv, to2: string, a2: real, env2: SendEnv)
    requires |env1.hashDigits| == 64 && |env2.hashDigits| == 64
    requires Validate(to1, a1, s.balance).None? && Validate(to2, a2, s.balance).None?
    ensures
      var first := SendTransaction(s, to1, a1, env1);
      var second := SendTransaction(first.session, to2, a2, env2);
      && first.timer.Some? && second.timer.Some?
      && var done1 := Resolve(second.session, first.timer.value, true);
         var done2 := Resolve(done1.session, second.timer.value, false);
         done2.session.balance == ToFixed4(s.balance - a1)
  {
    var first := SendTransaction(s, to1, a1, env1);
    var second := SendTransaction(first.session, to2, a2, env2);
    assert first.timer.Some?;
    SecondTimerSnapshot(s, to1, a1, env1, to2, a2, env2);
    var r1 := first.timer.value;
    assert r1.snapshot - r1.amount == s.balance - a1;
  }

  /** With 5 ether and two sends of 1 ether that both succeed, the balance ends at 4, not 3. */
  lemma LostUpdateExample(s: Session, to1: string, env1: SendEnv, to2: string, env2: SendEnv)
    requires |env1.hashDigits| == 64 && |env2.hashDigits| == 64
    requires IsAddressShape(to1) && IsAddressShape(to2) && s.balance == 5.0
    ensures
      var first := SendTransaction(s, to1, 1.0, env1);
      var second := SendTransaction(first.session, to2, 1.0, env2);
      && first.timer.Some? && second.timer.Some?
      && Resolve(Resolve(second.session, first.timer.value, true).session, second.timer.value, true).session.balance == 4.0
  {
    SnapshotLosesEarlierDeduction(s, to1, 1.0, env1, to2, 1.0, env2);
    ToFixed4Exact(4.0);
  }

  /**
   * A successful timer that fires after a disconnect finds no entry to update, yet still writes
   * the deducted balance into the disconnected session: when the amount leaves at least
   * half a unit of the fourth digit, that balance is not zero.
   */
  lemma StaleResolutionAfterDisconnect(s: Session, r: Resolution)
    requires 0.0 < r.amount && r.amount + 0.00005 <= r.snapshot
    ensures
      var st := Resolve(Disconnect(s).session, r, true).session;
      && !st.isConnected && st.address == None && st.transactions == []
      && st.balance == ToFixed4(r.snapshot - r.amount)
      && st.balance > 0.0
  {
  }

  /** Subtracting 1 from a four-digit value leaves a four-digit value, which `toFixed(4)` keeps. */
  lemma FourDigitsMinusOne(x: real)
    requires IsFixed4(x)
    ensures ToFixed4(x - 1.0) == x - 1.0
  {
    assert (x - 1.0) * Scale == x * Scale - Scale;
    assert ((x - 1.0) * Scale).Floor == (x * Scale).Floor - 10000;
    ToFixed4Exact(x - 1.0);
  }

  const SampleRecipient: string := "0xAAAAAAAAAAAAAAAAAAAAAAAAAAAAAAAAAAAAAAAA"

  lemma SampleRecipientShape()
    ensures IsAddressShape(SampleRecipient)
  {
    assert SampleRecipient[0] == '0' && SampleRecipient[1] == 'x';
    assert SampleRecipient[..2] == "0x";
  }

  /**
   * Connect, send 1 to a sample address, let its timer fire: the connected balance is
   * a four-digit value in [0, 10]; the send puts one Pending entry for 1 on top; the
   * timer settles it, and on success the balance is exactly the connected balance minus 1.
   */
  lemma ConnectSendResolve(s: Session, random: real, env: SendEnv, ok: bool)
    requires 0.0 <= random < 1.0 && |env.hashDigits| == 64
    requires Connect(s, random).session.balance >= 1.0
    ensures
      var c := Connect(s, random).session;
      var sent := SendTransaction(c, SampleRecipient, 1.0, env);
      && 0.0 <= c.balance <= 10.0 && IsFixed4(c.balance)
      && sent.timer.Some? && |sent.session.transactions| >= 1
      && sent.session.transactions[0].status == Pending
      && sent.session.transactions[0].to == SampleRecipient
      && sent.session.transactions[0].amount == 1.0
      && var done := Resolve(sent.session, sent.timer.value, ok).session;
         && done.transactions[0].status == (if ok then Success else Failed)
         && done.balance == (if ok then c.balance - 1.0 else c.balance)
  {
    SampleRecipientShape();
    var c := Connect(s, random).session;
    FourDigitsMinusOne(c.balance);
    var sent := SendTransaction(c, SampleRecipient, 1.0, env);
    assert sent.session.transactions[0].id == sent.timer.value.txId;
  }
}

=== FILE: text.dfy ===
/** The JavaScript string operations the wallet code relies on, on `seq<char>`. */
module Text {

  function Min(a: int, b: int): int {
    if a <= b then a else b
  }

  /** `s.slice(0, n)`: the first `n` elements, or all of `s` when it is shorter. */
  function Take<T>(s: seq<T>, n: nat): (r: seq<T>)
    ensures |r| == Min(|s|, n)
    ensures r == s[..|r|]
  {
    if |s| <= n then s else s[..n]
  }

  function Reverse<T>(s: seq<T>): (r: seq<T>)
    ensures |r| == |s|
    ensures forall i :: 0 <= i < |s| ==> r[i] == s[|s| - 1 - i]
  {
    if s == [] then [] else Reverse(s[1..]) + [s[0]]
  }

  /** Taking `n` of a sequence whose tail was already cut at `n` changes nothing. */
  lemma TakeAbsorbs<T>(a: seq<T>, b: seq<T>, n: nat)
    ensures Take(a + Take(b, n), n) == Take(a + b, n)
  {
    var l := Take(a + b, n);
    var r := Take(a + Take(b, n), n);
    assert |l| == |r|;
    forall i | 0 <= i < |l|
      ensures l[i] == r[i]
    {
      if i >= |a| {
        assert l[i] == b[i - |a|];
      }
    }
  }

  /** `s.startsWith(prefix)` */
  predicate StartsWith(s: string, prefix: string) {
    |prefix| <= |s| && s[..|prefix|] == prefix
  }

  /** `s.slice(0, 6) + "..." + s.slice(-4)`: how the UI and the notices abbreviate an address or id. */
  function Abbreviate(s: string): string {
    s[..Min(|s|, 6)] + "..." + s[|s| - Min(|s|, 4)..]
  }

  /** The abbreviation keeps the first six and the last four characters around "...". */
  lemma AbbreviateShape(s: string)
    ensures |Abbreviate(s)| == Min(|s|, 6) + 3 + Min(|s|, 4)
    ensures |s| >= 10 ==>
      var r := Abbreviate(s);
      |r| == 13 && r[..6] == s[..6] && r[6..9] == "..." && r[9..] == s[|s| - 4..]
  {
  }

  /** The characters `String.prototype.trim` removes: WhiteSpace and LineTerminator of ECMAScript. */
  predicate IsWhitespace(c: char) {
    || c == '\t' || c == '\n' || c == '\U{000B}' || c == '\U{000C}' || c == '\r' || c == ' '
    || c == '\U{00A0}' || c == '\U{1680}' || ('\U{2000}' <= c <= '\U{200A}')
    || c == '\U{2028}' || c == '\U{2029}' || c == '\U{202F}' || c == '\U{205F}'
    || c == '\U{3000}' || c == '\U{FEFF}'
  }

  predicate AllWhitespace(s: string) {
    forall k :: 0 <= k < |s| ==> IsWhitespace(s[k])
  }

  /** `s.trimStart()` */
  function TrimStart(s: string): string
    decreases |s|
  {
    if |s| > 0 && IsWhitespace(s[0]) then TrimStart(s[1..]) else s
  }

  /** `trimStart` keeps a suffix, drops only whitespace, and leaves no leading whitespace. */
  lemma {:induction false} TrimStartFacts(s: string)
    ensures |TrimStart(s)| <= |s| && TrimStart(s) == s[|s| - |TrimStart(s)|..]
    ensures forall k :: 0 <= k < |s| - |TrimStart(s)| ==> IsWhitespace(s[k])
    ensures |TrimStart(s)| > 0 ==> !IsWhitespace(TrimStart(s)[0])
    decreases |s|
  {
    if |s| > 0 && IsWhitespace(s[0]) {
      TrimStartFacts(s[1..]);
      assert forall k :: 1 <= k < |s| ==> s[k] == s[1..][k - 1];
    }
  }

  /** `s.trimEnd()` */
  function TrimEnd(s: string): string
    decreases |s|
  {
    if |s| > 0 && IsWhitespace(s[|s| - 1]) then TrimEnd(s[..|s| - 1]) else s
  }

  /** `trimEnd` keeps a prefix, drops only whitespace, and leaves no trailing whitespace. */
  lemma {:induction false} TrimEndFacts(s: string)
    ensures |TrimEnd(s)| <= |s| && TrimEnd(s) == s[..|TrimEnd(s)|]
    ensures forall k :: |TrimEnd(s)| <= k < |s| ==> IsWhitespace(s[k])
    ensures |TrimEnd(s)| > 0 ==> !IsWhitespace(TrimEnd(s)[|TrimEnd(s)| - 1])
    decreases |s|
  {
    if |s| > 0 && IsWhitespace(s[|s| - 1]) {
      TrimEndFacts(s[..|s| - 1]);
    }
  }

  /** How many whitespace characters `s` starts with. */
  function Indent(s: string): nat {
    TrimStartFacts(s);
    |s| - |TrimStart(s)|
  }

  /** `s.trim()`: what lies between the leading and the trailing whitespace of `s`. */
  function Trim(s: string): (r: string)
    ensures |r| <= |s|
    ensures |r| > 0 ==> !IsWhitespace(r[0]) && !IsWhitespace(r[|r| - 1])
  {
    var t := TrimStart(s);
    TrimStartFacts(s);
    TrimEndFacts(t);
    var r := TrimEnd(t);
    assert |r| > 0 ==> r[0] == t[0];
    r
  }

  /** `Trim` leaves nothing exactly when `s` is all whitespace. */
  lemma TrimEmptyIff(s: string)
    ensures Trim(s) == "" <==> AllWhitespace(s)
  {
    var t := TrimStart(s);
    TrimStartFacts(s);
    TrimEndFacts(t);
    if |t| > 0 {
      assert s[|s| - |t|] == t[0];
    }
  }

  /**
   * What `Trim` keeps is the run of `s` that starts after its indentation, and what
   * follows that run is whitespace: only the leading and the trailing whitespace go.
   */
  lemma TrimInfix(s: string)
    ensures |Trim(s)| + Indent(s) <= |s|
    ensures forall k :: 0 <= k < |Trim(s)| ==> Trim(s)[k] == s[Indent(s) + k]
    ensures forall k :: 0 <= k < Indent(s) ==> IsWhitespace(s[k])
    ensures forall k :: Indent(s) + |Trim(s)| <= k < |s| ==> IsWhitespace(s[k])
  {
    var t := TrimStart(s);
    TrimStartFacts(s);
    TrimEndFacts(t);
    var r := Trim(s);
    assert r == TrimEnd(t);
    forall k | 0 <= k < |r|
      ensures r[k] == s[Indent(s) + k]
    {
      assert r[k] == t[k];
    }
    forall k | Indent(s) + |r| <= k < |s|
      ensures IsWhitespace(s[k])
    {
      assert s[k] == t[k - Indent(s)];
    }
  }

  /** A character `Trim` keeps was in `s`. */
  lemma TrimKeeps(s: string, c: char)
    requires c in Trim(s)
    ensures c in s
  {
    TrimInfix(s);
    var k :| 0 <= k < |Trim(s)| && Trim(s)[k] == c;
    assert s[Indent(s) + k] == c;
  }

  /** A string with no whitespace at either end is its own trim. */
  lemma TrimUnpadded(s: string)
    requires |s| > 0 && !IsWhitespace(s[0]) && !IsWhitespace(s[|s| - 1])
    ensures Trim(s) == s
  {
    assert TrimStart(s) == s;
    assert TrimEnd(s) == s;
  }

  /** Leading whitespace plays no part in the trim. */
  lemma TrimSkipsLeading(c: char, s: string)
    requires IsWhitespace(c)
    ensures Trim([c] + s) == Trim(s)
  {
    assert ([c] + s)[1..] == s;
    assert TrimStart([c] + s) == TrimStart(s);
  }

  /** Trimming is idempotent. */
  lemma TrimIdempotent(s: string)
    ensures Trim(Trim(s)) == Trim(s)
  {
    var r := Trim(s);
    assert TrimStart(r) == r;
    assert TrimEnd(r) == r;
  }

  /** `s.split(sep)` for a one-character separator: every maximal run between separators, in order. */
  function Split(s: string, sep: char): (parts: seq<string>)
    ensures |parts| >= 1
    ensures forall i :: 0 <= i < |parts| ==> sep !in parts[i]
    decreases |s|
  {
    if |s| == 0 then [""]
    else
      var rest := Split(s[1..], sep);
      if s[0] == sep then [""] + rest
      else [[s[0]] + rest[0]] + rest[1..]
  }

  /** `parts.join(sep)`, the inverse of `Split`. */
  function Join(parts: seq<string>, sep: char): string
  {
    if |parts| == 0 then ""
    else if |parts| == 1 then parts[0]
    else parts[0] + [sep] + Join(parts[1..], sep)
  }

  /** Joining the pieces of a split gives the original string back. */
  lemma {:induction false} JoinSplit(s: string, sep: char)
    ensures Join(Split(s, sep), sep) == s
    decreases |s|
  {
    if |s| > 0 {
      var rest := Split(s[1..], sep);
      JoinSplit(s[1..], sep);
      if s[0] == sep {
        assert Join(Split(s, sep), sep) == [sep] + Join(rest, sep);
      } else if |rest| == 1 {
        assert Join(Split(s, sep), sep) == [s[0]] + rest[0];
      } else {
        assert Join(rest, sep) == rest[0] + [sep] + Join(rest[1..], sep);
        assert Join(Split(s, sep), sep) == [s[0]] + rest[0] + [sep] + Join(rest[1..], sep);
      }
      assert s == [s[0]] + s[1..];
    }
  }

  lemma {:induction false} SplitNoSeparator(x: string, sep: char)
    requires sep !in x
    ensures Split(x, sep) == [x]
    decreases |x|
  {
    if |x| > 0 {
      SplitNoSeparator(x[1..], sep);
      assert x == [x[0]] + x[1..];
    }
  }

  lemma {:induction false} SplitAtSeparator(x: string, sep: char, t: string)
    requires sep !in x
    ensures Split(x + [sep] + t, sep) == [x] + Split(t, sep)
    decreases |x|
  {
    var s := x + [sep] + t;
    if |x| == 0 {
      assert s[1..] == t;
    } else {
      assert s[1..] == x[1..] + [sep] + t;
      SplitAtSeparator(x[1..], sep, t);
      assert x == [x[0]] + x[1..];
    }
  }

  /** Splitting a join of separator-free pieces gives the pieces back. */
  lemma {:induction false} SplitJoin(parts: seq<string>, sep: char)
    requires |parts| >= 1
    requires forall i :: 0 <= i < |parts| ==> sep !in parts[i]
    ensures Split(Join(parts, sep), sep) == parts
    decreases |parts|
  {
    if |parts| == 1 {
      SplitNoSeparator(parts[0], sep);
    } else {
      SplitJoin(parts[1..], sep);
      SplitAtSeparator(parts[0], sep, Join(parts[1..], sep));
      assert parts == [parts[0]] + parts[1..];
    }
  }

  /** A number below 16, the value of one hexadecimal digit. */
  type HexDigit = d: nat | d < 16

  const HexChars: string := "0123456789abcdef"

  predicate IsLowerHex(c: char) {
    '0' <= c <= '9' || 'a' <= c <= 'f'
  }

  /** `d.toString(16)` for each digit, concatenated: lower-case hexadecimal text. */
  function HexString(ds: seq<HexDigit>): (r: string)
    ensures |r| == |ds|
    ensures forall i :: 0 <= i < |r| ==> IsLowerHex(r[i])
    ensures forall i, j :: 0 <= i < |r| && 0 <= j < |r| && ds[i] != ds[j] ==> r[i] != r[j]
  {
    seq(|ds|, i requires 0 <= i < |ds| => HexChars[ds[i]])
  }
}

=== FILE: transaction_manager.dfy ===
/**
 * The non-presentational logic of the wallet screen: turning the form into one
 * send per recipient, abbreviating the address, and the colour of a status.
 */
module TransactionManager {
  import opened Results
  import opened Text
  import opened WalletTypes
  import opened WalletStore
  import StoreProperties
  import Web3Service

  /** `parts.map(p => p.trim())` */
  function TrimAll(parts: seq<string>): (r: seq<string>)
    ensures |r| == |parts|
    ensures forall i :: 0 <= i < |r| ==> r[i] == Trim(parts[i])
  {
    if parts == [] then [] else [Trim(parts[0])] + TrimAll(parts[1..])
  }

  /** `parts.filter(Boolean)`: the non-empty strings, in their order. */
  function DropEmpty(parts: seq<string>): (r: seq<string>)
    ensures |r| <= |parts|
    ensures forall i :: 0 <= i < |r| ==> r[i] != "" && r[i] in parts
    ensures forall i :: 0 <= i < |parts| && parts[i] != "" ==> parts[i] in r
    ensures (forall i :: 0 <= i < |parts| ==> parts[i] != "") ==> r == parts
    ensures r == [] <==> forall i :: 0 <= i < |parts| ==> parts[i] == ""
  {
    if parts == [] then []
    else if parts[0] == "" then DropEmpty(parts[1..])
    else [parts[0]] + DropEmpty(parts[1..])
  }

  /** Filtering a one-element list keeps the element exactly when it is not empty. */
  lemma DropEmptyOne(x: string)
    ensures DropEmpty([x]) == if x == "" then [] else [x]
  {
    assert [x][1..] == [];
  }

  /** Filtering keeps order: the survivors of `a` come before those of `b`. */
  lemma {:induction false} DropEmptyAppend(a: seq<string>, b: seq<string>)
    ensures DropEmpty(a + b) == DropEmpty(a) + DropEmpty(b)
    decreases |a|
  {
    if a != [] {
      assert (a + b)[0] == a[0];
      assert (a + b)[1..] == a[1..] + b;
      DropEmptyAppend(a[1..], b);
    } else {
      assert a + b == b;
    }
  }

  lemma TrimAllAppend(a: seq<string>, b: seq<string>)
    ensures TrimAll(a + b) == TrimAll(a) + TrimAll(b)
  {
    var l := TrimAll(a + b);
    var r := TrimAll(a) + TrimAll(b);
    assert |l| == |r|;
    forall i | 0 <= i < |l|
      ensures l[i] == r[i]
    {
      if i >= |a| {
        assert (a + b)[i] == b[i - |a|];
      }
    }
  }

  /** The recipient list of the form: the comma-separated parts, trimmed, empty ones dropped. */
  function Recipients(to: string): (rs: seq<string>)
    ensures |rs| <= |Split(to, ',')|
    ensures forall i :: 0 <= i < |rs| ==> rs[i] != "" && ',' !in rs[i] && Trim(rs[i]) == rs[i]
  {
    var parts := Split(to, ',');
    var trimmed := TrimAll(parts);
    var rs := DropEmpty(trimmed);
    forall i | 0 <= i < |rs|
      ensures ',' !in rs[i] && Trim(rs[i]) == rs[i]
    {
      var j :| 0 <= j < |trimmed| && trimmed[j] == rs[i];
      TrimIdempotent(parts[j]);
      if ',' in rs[i] {
        TrimKeeps(parts[j], ',');
      }
    }
    rs
  }

  /** `s` holds nothing but commas and whitespace. */
  predicate Blank(s: string) {
    forall k :: 0 <= k < |s| ==> s[k] == ',' || IsWhitespace(s[k])
  }

  predicate AllPartsWhitespace(parts: seq<string>) {
    forall j :: 0 <= j < |parts| ==> AllWhitespace(parts[j])
  }

  lemma {:induction false} SplitBlank(s: string)
    ensures AllPartsWhitespace(Split(s, ',')) <==> Blank(s)
    decreases |s|
  {
    if |s| > 0 {
      var rest := Split(s[1..], ',');
      SplitBlank(s[1..]);
      var parts := Split(s, ',');
      BlankCons(s);
      if s[0] == ',' {
        assert parts == [""] + rest;
        ConsPartsWhitespace("", rest);
      } else {
        var head := [s[0]] + rest[0];
        assert parts == [head] + rest[1..];
        ConsPartsWhitespace(head, rest[1..]);
        ConsPartsWhitespace(rest[0], rest[1..]);
        assert rest == [rest[0]] + rest[1..];
        ConsWhitespace(s[0], rest[0]);
      }
    }
  }

  lemma BlankCons(s: string)
    requires |s| > 0
    ensures Blank(s) <==> (s[0] == ',' || IsWhitespace(s[0])) && Blank(s[1..])
  {
    if Blank(s) {
      forall k | 0 <= k < |s| - 1
        ensures s[1..][k] == ',' || IsWhitespace(s[1..][k])
      {
        assert s[1..][k] == s[k + 1];
      }
    }
    if (s[0] == ',' || IsWhitespace(s[0])) && Blank(s[1..]) {
      forall k | 0 < k < |s|
        ensures s[k] == ',' || IsWhitespace(s[k])
      {
        assert s[k] == s[1..][k - 1];
      }
    }
  }

  lemma ConsWhitespace(c: char, x: string)
    ensures AllWhitespace([c] + x) <==> IsWhitespace(c) && AllWhitespace(x)
  {
    var y := [c] + x;
    assert y[0] == c;
    assert forall k :: 0 <= k < |x| ==> y[k + 1] == x[k];
  }

  lemma ConsPartsWhitespace(head: string, tail: seq<string>)
    ensures AllPartsWhitespace([head] + tail) <==> AllWhitespace(head) && AllPartsWhitespace(tail)
  {
    var ps := [head] + tail;
    assert ps[0] == head;
    assert forall j :: 0 <= j < |tail| ==> ps[j + 1] == tail[j];
  }

  /** The recipient list is empty exactly when the field holds only commas and whitespace. */
  lemma RecipientsEmptyIff(to: string)
    ensures Recipients(to) == [] <==> Blank(to)
  {
    var parts := Split(to, ',');
    var trimmed := TrimAll(parts);
    forall j | 0 <= j < |parts|
      ensures trimmed[j] == "" <==> AllWhitespace(parts[j])
    {
      TrimEmptyIff(parts[j]);
    }
    SplitBlank(to);
  }

  /** For any comma-free parts, the recipients of their comma-join are the parts trimmed, empty ones dropped, in order. */
  lemma RecipientsOfParts(xs: seq<string>)
    requires |xs| >= 1
    requires forall i :: 0 <= i < |xs| ==> ',' !in xs[i]
    ensures Recipients(Join(xs, ',')) == DropEmpty(TrimAll(xs))
  {
    SplitJoin(xs, ',');
  }

  /** A field without a comma names at most one recipient: its trim, unless that is empty. */
  lemma RecipientsOfPart(x: string)
    requires ',' !in x
    ensures Recipients(x) == if Trim(x) == "" then [] else [Trim(x)]
  {
    assert Join([x], ',') == x;
    RecipientsOfParts([x]);
    assert TrimAll([x]) == [Trim(x)];
    DropEmptyOne(Trim(x));
  }

  /** The recipients of two comma-joined lists are those of the first followed by those of the second. */
  lemma RecipientsOfConcat(xs: seq<string>, ys: seq<string>)
    requires |xs| >= 1 && |ys| >= 1
    requires forall i :: 0 <= i < |xs| ==> ',' !in xs[i]
    requires forall i :: 0 <= i < |ys| ==> ',' !in ys[i]
    ensures Recipients(Join(xs + ys, ',')) == Recipients(Join(xs, ',')) + Recipients(Join(ys, ','))
  {
    assert forall i :: 0 <= i < |xs + ys| ==> ',' !in (xs + ys)[i] by {
      forall i | 0 <= i < |xs + ys|
        ensures ',' !in (xs + ys)[i]
      {
        if i >= |xs| {
          assert (xs + ys)[i] == ys[i - |xs|];
        }
      }
    }
    RecipientsOfParts(xs + ys);
    RecipientsOfParts(xs);
    RecipientsOfParts(ys);
    TrimAllAppend(xs, ys);
    DropEmptyAppend(TrimAll(xs), TrimAll(ys));
  }

  /** The space after a comma is trimmed away: "0xA, 0xB" names "0xA" and then "0xB". */
  lemma PaddedRecipients()
    ensures Recipients("0xA, 0xB") == ["0xA", "0xB"]
  {
    assert "0xA, 0xB" == "0xA" + [','] + ([' '] + "0xB");
    PaddedPair("0xA", ' ', "0xB");
  }

  /** `x, y` with whitespace `c` after the comma names `x` and then `y`. */
  lemma PaddedPair(x: string, c: char, y: string)
    requires x != "" && ',' !in x && !IsWhitespace(x[0]) && !IsWhitespace(x[|x| - 1])
    requires IsWhitespace(c)
    requires y != "" && ',' !in y && !IsWhitespace(y[0]) && !IsWhitespace(y[|y| - 1])
    ensures Recipients(x + [','] + ([c] + y)) == [x, y]
  {
    var z := [c] + y;
    assert ',' !in z;
    assert Join([x] + [z], ',') == x + [','] + z by {
      assert [x] + [z] == [x, z];
      assert Join([x, z], ',') == x + [','] + Join([z], ',');
    }
    RecipientsOfConcat([x], [z]);
    assert Join([x], ',') == x && Join([z], ',') == z;
    SingleRecipient(x);
    PaddedSingleRecipient(c, y);
  }

  /** A comma-free field with no padding names itself. */
  lemma SingleRecipient(x: string)
    requires x != "" && ',' !in x && !IsWhitespace(x[0]) && !IsWhitespace(x[|x| - 1])
    ensures Recipients(x) == [x]
  {
    RecipientsOfPart(x);
    TrimUnpadded(x);
  }

  /** Leading whitespace before a single recipient is dropped. */
  lemma PaddedSingleRecipient(c: char, x: string)
    requires IsWhitespace(c)
    requires x != "" && ',' !in x && !IsWhitespace(x[0]) && !IsWhitespace(x[|x| - 1])
    ensures Recipients([c] + x) == [x]
  {
    assert ',' !in [c] + x;
    RecipientsOfPart([c] + x);
    TrimSkipsLeading(c, x);
    TrimUnpadded(x);
  }

  /** A comma-joined list of unpadded, comma-free addresses is read back as exactly that list. */
  lemma RecipientsOfJoin(xs: seq<string>)
    requires |xs| >= 1
    requires forall i :: 0 <= i < |xs| ==>
      xs[i] != "" && ',' !in xs[i] && !IsWhitespace(xs[i][0]) && !IsWhitespace(xs[i][|xs[i]| - 1])
    ensures Recipients(Join(xs, ',')) == xs
  {
    RecipientsOfParts(xs);
    TrimAllUnpadded(xs);
  }

  lemma TrimAllUnpadded(xs: seq<string>)
    requires forall i :: 0 <= i < |xs| ==>
      xs[i] != "" && !IsWhitespace(xs[i][0]) && !IsWhitespace(xs[i][|xs[i]| - 1])
    ensures TrimAll(xs) == xs
  {
    forall i | 0 <= i < |xs|
      ensures Trim(xs[i]) == xs[i]
    {
      TrimUnpadded(xs[i]);
    }
  }

  datatype SendRequest = SendRequest(to: string, amount: real)

  /** The sends one submission issues, in order, and whether the form is cleared afterwards. */
  datatype SubmitPlan = SubmitPlan(sends: seq<SendRequest>, resetForm: bool)

  function EqualShares(rs: seq<string>, share: real): (r: seq<SendRequest>)
    ensures |r| == |rs|
    ensures forall i :: 0 <= i < |r| ==> r[i] == SendRequest(rs[i], share)
  {
    if rs == [] then [] else [SendRequest(rs[0], share)] + EqualShares(rs[1..], share)
  }

  /** `amount / n`: the share each of `n` recipients is sent. */
  function Share(amount: real, n: nat): real
    requires n > 0
  {
    amount / (n as real)
  }

  /** `x` added up `n` times. */
  function Repeat(n: nat, x: real): real {
    if n == 0 then 0.0 else x + Repeat(n - 1, x)
  }

  lemma {:induction false} RepeatIsProduct(n: nat, x: real)
    ensures Repeat(n, x) == (n as real) * x
  {
    if n > 0 {
      RepeatIsProduct(n - 1, x);
    }
  }

  /** `n` shares make up the whole amount. */
  lemma SharesMakeWhole(amount: real, n: nat)
    requires n > 0
    ensures Repeat(n, Share(amount, n)) == amount
  {
    RepeatIsProduct(n, Share(amount, n));
  }

  /**
   * `handleSubmit`, with the amount field already read by `parseFloat` (`None` for NaN):
   * nothing happens for an empty recipient field or an unreadable amount; otherwise
   * every listed recipient, in order, is sent an equal share and the form is cleared.
   */
  function HandleSubmit(to: string, amount: Option<real>): (p: SubmitPlan)
    ensures to == "" || amount.None? ==> p == SubmitPlan([], false)
    ensures to != "" && amount.Some? ==>
      && p.resetForm
      && |p.sends| == |Recipients(to)|
      && forall i :: 0 <= i < |p.sends| ==>
           p.sends[i].to == Recipients(to)[i] && p.sends[i].amount == Share(amount.value, |p.sends|)
  {
    if to == "" || amount.None? then SubmitPlan([], false)
    else
      var rs := Recipients(to);
      if rs == [] then SubmitPlan([], true)
      else
        SubmitPlan(EqualShares(rs, Share(amount.value, |rs|)), true)
  }

  /** The sum of the amounts of `sends`. */
  function Total(sends: seq<SendRequest>): real {
    if sends == [] then 0.0 else sends[0].amount + Total(sends[1..])
  }

  lemma {:induction false} TotalOfEqualShares(rs: seq<string>, share: real)
    ensures Total(EqualShares(rs, share)) == Repeat(|rs|, share)
    decreases |rs|
  {
    if rs != [] {
      TotalOfEqualShares(rs[1..], share);
      assert EqualShares(rs, share)[1..] == EqualShares(rs[1..], share);
    }
  }

  lemma EqualSharesMakeWhole(rs: seq<string>, amount: real)
    requires rs != []
    ensures Total(EqualShares(rs, Share(amount, |rs|))) == amount
  {
    TotalOfEqualShares(rs, Share(amount, |rs|));
    SharesMakeWhole(amount, |rs|);
  }

  /** With at least one recipient, the shares add up to the amount entered. */
  lemma SharesSumToAmount(to: string, amount: real)
    requires to != "" && Recipients(to) != []
    ensures Total(HandleSubmit(to, Some(amount)).sends) == amount
  {
    var rs := Recipients(to);
    assert HandleSubmit(to, Some(amount)).sends == EqualShares(rs, Share(amount, |rs|));
    EqualSharesMakeWhole(rs, amount);
  }

  /** A field of commas and whitespace sends nothing, yet the form is cleared. */
  lemma BlankFieldSendsNothing(to: string, amount: real)
    requires to != "" && Blank(to)
    ensures HandleSubmit(to, Some(amount)) == SubmitPlan([], true)
  {
    RecipientsEmptyIff(to);
  }

  /** What the store does with a plan: one awaited `sendTransaction` per request, in order. */
  datatype Batch = Batch(session: Session, timers: seq<Resolution>, notices: seq<Notice>)

  predicate Supplied(envs: seq<SendEnv>) {
    forall i :: 0 <= i < |envs| ==> |envs[i].hashDigits| == 64
  }

  /** How many of `sends` pass the store's checks against `balance`. */
  function CountAccepted(sends: seq<SendRequest>, balance: real): nat {
    if sends == [] then 0
    else (if Validate(sends[0].to, sends[0].amount, balance) == None then 1 else 0) + CountAccepted(sends[1..], balance)
  }

  /**
   * The sends of one submission, each an independent store call: one notice each, one
   * timer per accepted send, the balance unchanged, and no rejection undoing an earlier send.
   */
  function SendEach(s: Session, sends: seq<SendRequest>, envs: seq<SendEnv>): (b: Batch)
    requires |envs| == |sends| && Supplied(envs)
    ensures b.session.balance == s.balance && !(|sends| > 0 && b.session.isLoading)
    ensures |b.notices| == |sends|
    ensures |b.timers| == CountAccepted(sends, s.balance)
    decreases |sends|
  {
    if sends == [] then Batch(s, [], [])
    else
      var st := SendTransaction(s, sends[0].to, sends[0].amount, envs[0]);
      var rest := SendEach(st.session, sends[1..], envs[1..]);
      var armed := match st.timer case Some(r) => [r] case None => [];
      Batch(rest.session, armed + rest.timers, [st.notice] + rest.notices)
  }

  /** The entry an accepted send adds, given what the environment supplied. */
  function Submitted(req: SendRequest, env: SendEnv): Transaction
    requires |env.hashDigits| == 64
  {
    var id := Web3Service.SendTransaction(req.to, req.amount, env.idDigits);
    Transaction(if id.Ok? then id.value else "", Pending, env.timestamp, req.to, req.amount, ContentHash(env.hashDigits))
  }

  function SubmittedAll(sends: seq<SendRequest>, envs: seq<SendEnv>): (txs: seq<Transaction>)
    requires |envs| == |sends| && Supplied(envs)
    ensures |txs| == |sends|
    ensures forall i :: 0 <= i < |txs| ==> txs[i] == Submitted(sends[i], envs[i])
  {
    if sends == [] then [] else [Submitted(sends[0], envs[0])] + SubmittedAll(sends[1..], envs[1..])
  }

  predicate AllAccepted(sends: seq<SendRequest>, balance: real) {
    forall i :: 0 <= i < |sends| ==> Validate(sends[i].to, sends[i].amount, balance) == None
  }

  /** When every send is accepted, the history is the old one with each new entry pushed in turn. */
  lemma {:induction false} SendEachHistory(s: Session, sends: seq<SendRequest>, envs: seq<SendEnv>)
    requires |envs| == |sends| && Supplied(envs)
    requires AllAccepted(sends, s.balance)
    ensures SendEach(s, sends, envs).session.transactions
            == StoreProperties.PushAll(s.transactions, SubmittedAll(sends, envs))
    decreases |sends|
  {
    if sends != [] {
      var st := SendTransaction(s, sends[0].to, sends[0].amount, envs[0]);
      assert st.session.transactions == Push(Submitted(sends[0], envs[0]), s.transactions);
      SendEachHistory(st.session, sends[1..], envs[1..]);
      assert SubmittedAll(sends, envs)[1..] == SubmittedAll(sends[1..], envs[1..]);
    }
  }

  /** "a,b" with a total of 2 becomes two sends of 1, to a and then to b. */
  lemma SplitPlanForTwo(a: string, b: string)
    requires IsAddressShape(a) && IsAddressShape(b)
    requires ',' !in a && ',' !in b && !IsWhitespace(a[41]) && !IsWhitespace(b[41])
    ensures HandleSubmit(a + "," + b, Some(2.0)).sends == [SendRequest(a, 1.0), SendRequest(b, 1.0)]
  {
    assert a[0] == '0' && b[0] == '0';
    RecipientsOfJoin([a, b]);
    assert Join([a, b], ',') == a + "," + b;
    assert Recipients(a + "," + b) == [a, b];
    assert Share(2.0, 2) == 1.0;
  }

  /**
   * Two accepted sends of 1: each its own Pending entry, the second recipient's on
   * top, and two timers armed.
   */
  lemma TwoSendsTwoEntries(s: Session, a: string, b: string, envs: seq<SendEnv>)
    requires IsAddressShape(a) && IsAddressShape(b)
    requires s.balance >= 1.0 && |s.transactions| <= MaxHistory
    requires |envs| == 2 && Supplied(envs)
    ensures
      var r := SendEach(s, [SendRequest(a, 1.0), SendRequest(b, 1.0)], envs);
      && |r.timers| == 2
      && |r.session.transactions| >= 2
      && r.session.transactions[0] == Submitted(SendRequest(b, 1.0), envs[1])
      && r.session.transactions[1] == Submitted(SendRequest(a, 1.0), envs[0])
  {
    var sends := [SendRequest(a, 1.0), SendRequest(b, 1.0)];
    assert CountAccepted(sends[1..], s.balance) == 1;
    var txs := SubmittedAll(sends, envs);
    SendEachHistory(s, sends, envs);
    StoreProperties.PushAllKeepsNewest(s.transactions, txs);
    var h := Take(Reverse(txs) + s.transactions, MaxHistory);
    assert h[0] == txs[1] && h[1] == txs[0];
  }

  /** `shortenedAddress`: empty without an address (or with an empty one), else the first six and last four characters. */
  function ShortenedAddress(address: Option<string>): (r: string)
    ensures address.None? || address.value == "" ==> r == ""
    ensures address.Some? && |address.value| >= 10 ==>
      && |r| == 13 && r[..6] == address.value[..6] && r[6..9] == "..."
      && r[9..] == address.value[|address.value| - 4..]
  {
    match address
    case None => ""
    case Some(a) =>
      AbbreviateShape(a);
      if a == "" then "" else Abbreviate(a)
  }

  /** The connected mock account is shown as "0x742d...f44e". */
  lemma MockAddressShown()
    ensures ShortenedAddress(Some(Web3Service.MockAddress)) == "0x742d...f44e"
  {
    var m := Web3Service.MockAddress;
    assert |m| == 42;
    MockAddressEnds(m);
    AbbreviateShape(m);
  }

  lemma MockAddressEnds(m: string)
    requires m == Web3Service.MockAddress
    ensures m[..6] == "0x742d" && m[38..] == "f44e"
  {
    assert m[0] == '0' && m[1] == 'x' && m[2] == '7' && m[3] == '4' && m[4] == '2' && m[5] == 'd';
    assert m[38] == 'f' && m[39] == '4' && m[40] == '4' && m[41] == 'e';
    assert m[..6] == [m[0], m[1], m[2], m[3], m[4], m[5]];
    assert m[38..] == [m[38], m[39], m[40], m[41]];
  }

  const PendingColor: string := "text-yellow-500 dark:text-yellow-400"
  const SuccessColor: string := "text-green-500 dark:text-green-400"
  const FailedColor: string := "text-red-500 dark:text-red-400"
  const DefaultColor: string := "text-gray-500 dark:text-gray-400"

  /** `getStatusColor`: the CSS classes for a status name; anything unknown is gray. */
  function StatusColor(status: string): (c: string)
    ensures c == DefaultColor <==> status != "Pending" && status != "Success" && status != "Failed"
    ensures c in {PendingColor, SuccessColor, FailedColor, DefaultColor}
  {
    if status == "Pending" then PendingColor
    else if status == "Success" then SuccessColor
    else if status == "Failed" then FailedColor
    else DefaultColor
  }

  /** Each of the three statuses has its own colour, and none of them is the gray default. */
  lemma StatusColorsDistinct(x: TxStatus, y: TxStatus)
    ensures StatusColor(StatusName(x)) != DefaultColor
    ensures x != y ==> StatusColor(StatusName(x)) != StatusColor(StatusName(y))
  {
  }
}

=== FILE: wallet_runtime.dfy ===
/**
 * The store driven by events, with the timers a send arms still waiting to fire.
 * Timers fire in any order and between any two user operations; a connect or a
 * send is one event here, from its start to the point its timer is armed.
 */
module WalletRuntime {
  import opened Results
  import opened Text
  import opened WalletTypes
  import opened WalletStore

  datatype World = World(session: Session, timers: seq<Resolution>, notices: seq<Notice>)

  datatype Event =
    | ConnectClicked(random: real)
    | DisconnectClicked
    | SendRequested(to: string, amount: real, env: SendEnv)
    | TimerFired(index: nat, success: bool)

  /** What the environment must supply for `e` to happen in `w`. */
  predicate Enabled(w: World, e: Event) {
    match e
    case ConnectClicked(x) => 0.0 <= x < 1.0
    case DisconnectClicked => true
    case SendRequested(_, _, env) => |env.hashDigits| == 64
    case TimerFired(i, _) => i < |w.timers|
  }

  function Start(): World {
    World(Initial(), [], [])
  }

  /** One event: the store operation it triggers, its notice appended, a fired timer removed, an armed one added. */
  function Next(w: World, e: Event): (w': World)
    requires Enabled(w, e)
    ensures |w'.notices| == |w.notices| + 1 && w'.notices[..|w.notices|] == w.notices
    ensures e.TimerFired? ==> w'.timers == w.timers[..e.index] + w.timers[e.index + 1..]
    ensures !e.TimerFired? ==> |w.timers| <= |w'.timers| <= |w.timers| + 1 && w'.timers[..|w.timers|] == w.timers
  {
    match e
    case ConnectClicked(x) =>
      var st := Connect(w.session, x);
      World(st.session, w.timers, w.notices + [st.notice])
    case DisconnectClicked =>
      var st := Disconnect(w.session);
      World(st.session, w.timers, w.notices + [st.notice])
    case SendRequested(to, amount, env) =>
      var st := SendTransaction(w.session, to, amount, env);
      var armed := match st.timer case Some(r) => [r] case None => [];
      World(st.session, w.timers + armed, w.notices + [st.notice])
    case TimerFired(i, ok) =>
      var st := Resolve(w.session, w.timers[i], ok);
      World(st.session, w.timers[..i] + w.timers[i + 1..], w.notices + [st.notice])
  }

  /** A timer a send armed: a positive amount no larger than the balance it was checked against. */
  predicate Sound(r: Resolution) {
    0.0 < r.amount <= r.snapshot && StartsWith(r.txId, "0x")
  }

  /** Between events the session is valid, nothing is loading, and every waiting timer is sound. */
  predicate Invariant(w: World) {
    && Valid(w.session)
    && !w.session.isLoading
    && forall i :: 0 <= i < |w.timers| ==> Sound(w.timers[i])
  }

  lemma StartInvariant()
    ensures Invariant(Start())
  {
  }

  lemma PushKeepsWellFormed(tx: Transaction, h: seq<Transaction>)
    requires WellFormed(tx)
    requires forall i :: 0 <= i < |h| ==> WellFormed(h[i])
    ensures forall i :: 0 <= i < |Push(tx, h)| ==> WellFormed(Push(tx, h)[i])
  {
    var r := Push(tx, h);
    forall i | 0 < i < |r|
      ensures WellFormed(r[i])
    {
      assert r[i] == r[1..][i - 1] == h[i - 1];
    }
  }

  lemma SendKeepsInvariant(w: World, to: string, amount: real, env: SendEnv)
    requires Invariant(w) && |env.hashDigits| == 64
    ensures Invariant(Next(w, SendRequested(to, amount, env)))
  {
    var st := SendTransaction(w.session, to, amount, env);
    if Validate(to, amount, w.session.balance).None? {
      PushKeepsWellFormed(st.session.transactions[0], w.session.transactions);
    }
    var w' := Next(w, SendRequested(to, amount, env));
    forall i | 0 <= i < |w'.timers|
      ensures Sound(w'.timers[i])
    {
      if i < |w.timers| {
        assert w'.timers[i] == w.timers[i];
      }
    }
  }

  lemma ResolveKeepsInvariant(w: World, i: nat, ok: bool)
    requires Invariant(w) && i < |w.timers|
    ensures Invariant(Next(w, TimerFired(i, ok)))
  {
    var r := w.timers[i];
    var st := Resolve(w.session, r, ok);
    var h := st.session.transactions;
    forall k | 0 <= k < |h|
      ensures WellFormed(h[k])
    {
      assert h[k].(status := w.session.transactions[k].status) == w.session.transactions[k];
    }
    var w' := Next(w, TimerFired(i, ok));
    forall k | 0 <= k < |w'.timers|
      ensures Sound(w'.timers[k])
    {
      if k < i {
        assert w'.timers[k] == w.timers[k];
      } else {
        assert w'.timers[k] == w.timers[k + 1];
      }
    }
  }

  /** Every event keeps the invariant: loading always ends, the history stays within five valid entries, the balance stays non-negative. */
  lemma NextKeepsInvariant(w: World, e: Event)
    requires Invariant(w) && Enabled(w, e)
    ensures Invariant(Next(w, e))
  {
    match e
    case ConnectClicked(_) =>
    case DisconnectClicked =>
    case SendRequested(to, amount, env) => SendKeepsInvariant(w, to, amount, env);
    case TimerFired(i, ok) => ResolveKeepsInvariant(w, i, ok);
  }

  /** Every event of `es`, in turn, is enabled when it happens. */
  predicate Runnable(w: World, es: seq<Event>)
    decreases |es|
  {
    es == [] || (Enabled(w, es[0]) && Runnable(Next(w, es[0]), es[1..]))
  }

  function Run(w: World, es: seq<Event>): World
    requires Runnable(w, es)
    decreases |es|
  {
    if es == [] then w else Run(Next(w, es[0]), es[1..])
  }

  /** Any run of events from a state that satisfies the invariant ends in one that does. */
  lemma {:induction false} RunKeepsInvariant(w: World, es: seq<Event>)
    requires Invariant(w) && Runnable(w, es)
    ensures Invariant(Run(w, es))
    decreases |es|
  {
    if es != [] {
      NextKeepsInvariant(w, es[0]);
      RunKeepsInvariant(Next(w, es[0]), es[1..]);
    }
  }

  /** Every run leaves one notice per event. */
  lemma {:induction false} RunNotifiesOncePerEvent(w: World, es: seq<Event>)
    requires Runnable(w, es)
    ensures |Run(w, es).notices| == |w.notices| + |es|
    decreases |es|
  {
    if es != [] {
      RunNotifiesOncePerEvent(Next(w, es[0]), es[1..]);
    }
  }
}

=== FILE: wallet_store.dfy ===
/**
 * The wallet session store: every store operation as a pure function from the
 * session (and what the environment supplies) to the next session and the notice
 * the user is shown. The deferred resolution a successful send schedules is
 * returned as a `Resolution` value that `Resolve` later consumes.
 */
module WalletStore {
  import opened Results
  import opened Text
  import opened Decimal
  import opened WalletTypes
  import Web3Service

  /** How many transactions the history keeps. */
  const MaxHistory: nat := 5

  const InvalidAddress: string := "Invalid Ethereum address format"
  const InvalidAmount: string := "Amount must be greater than 0"
  const InsufficientBalance: string := "Insufficient balance"

  /** Display time of a notice, in milliseconds. */
  const ShortNotice: nat := 3000
  const LongNotice: nat := 5000

  datatype Severity = SuccessNotice | InfoNotice | ErrorNotice

  /** A toast: what the user is told after an operation. */
  datatype Notice = Notice(severity: Severity, message: string, autoClose: nat)

  datatype Step = Step(session: Session, notice: Notice)

  /** What the deferred resolution of one submission remembers. */
  datatype Resolution = Resolution(txId: string, amount: real, snapshot: real)

  /** The ledger call a send is waiting on, with the balance read before the call. */
  datatype PendingCall = PendingCall(to: string, amount: real, snapshot: real)

  /** Where `updateBalance` takes the new balance from. */
  datatype BalanceSource = Explicit(value: real) | MockQuery(random: real)

  /** What the environment supplies to one send: random id and hash digits and the clock. */
  datatype SendEnv = SendEnv(idDigits: seq<HexDigit>, timestamp: int, hashDigits: seq<HexDigit>)

  datatype SendStep = SendStep(session: Session, notice: Notice, timer: Option<Resolution>)

  /** The address check of `sendTransaction`: a "0x" prefix and 42 characters, nothing more. */
  predicate IsAddressShape(to: string) {
    StartsWith(to, "0x") && |to| == 42
  }

  /** A history entry that only a successful send can have produced. */
  predicate WellFormed(tx: Transaction) {
    && IsAddressShape(tx.to)
    && tx.amount > 0.0
    && StartsWith(tx.id, "0x")
    && StartsWith(tx.hash, "0x") && |tx.hash| == 66
  }

  /** The session invariant every store operation keeps. */
  predicate Valid(s: Session) {
    && s.balance >= 0.0
    && |s.transactions| <= MaxHistory
    && (s.isConnected <==> s.address.Some?)
    && forall i :: 0 <= i < |s.transactions| ==> WellFormed(s.transactions[i])
  }

  /** The state the store is created with. */
  function Initial(): (s: Session)
    ensures Valid(s) && !s.isConnected && !s.isLoading && s.transactions == []
  {
    Session(None, false, [], false, None, 0.0)
  }

  /** `updateBalance`: an explicit value is stored as given; otherwise a mock query draws one in [0, 10]. */
  function UpdateBalance(s: Session, source: BalanceSource): (t: Session)
    requires source.MockQuery? ==> 0.0 <= source.random < 1.0
    ensures t == s.(balance := t.balance)
    ensures source.Explicit? ==> t.balance == source.value
    ensures source.MockQuery? ==> 0.0 <= t.balance <= 10.0 && IsFixed4(t.balance)
  {
    match source
    case Explicit(v) => s.(balance := v)
    case MockQuery(x) =>
      ToFixed4Range(x * 10.0);
      s.(balance := ToFixed4(x * 10.0))
  }

  /** Entry of `connect`: loading, and the previous error forgotten. */
  function BeginConnect(s: Session): Session {
    s.(isLoading := true, error := None)
  }

  /**
   * `connect` against a ledger whose reply is `reply`: on an address the session is
   * connected to it and the balance refreshed; on an error the message is kept.
   * Either way the store stops loading.
   */
  function ConnectWith(s: Session, reply: Result<string>, random: real): (st: Step)
    requires 0.0 <= random < 1.0
    ensures !st.session.isLoading
    ensures st.session.transactions == s.transactions
    ensures reply.Ok? ==>
      && st.session.address == Some(reply.value) && st.session.isConnected
      && st.session.error == None
      && 0.0 <= st.session.balance <= 10.0 && IsFixed4(st.session.balance)
      && st.notice.severity == SuccessNotice
    ensures reply.Err? ==>
      && st.session == s.(isLoading := false, error := Some(reply.message))
      && st.notice == Notice(ErrorNotice, "Failed to connect wallet: " + reply.message, LongNotice)
  {
    var t := BeginConnect(s);
    match reply
    case Ok(address) =>
      var connected := UpdateBalance(t.(address := Some(address), isConnected := true), MockQuery(random));
      Step(connected.(isLoading := false), Notice(SuccessNotice, "Wallet connected successfully!", ShortNotice))
    case Err(message) =>
      Step(t.(error := Some(message), isLoading := false),
           Notice(ErrorNotice, "Failed to connect wallet: " + message, LongNotice))
  }

  /** `connect` against the mock ledger, which never fails. */
  function Connect(s: Session, random: real): (st: Step)
    requires 0.0 <= random < 1.0
    ensures st.session.address == Some(Web3Service.MockAddress) && st.session.isConnected
    ensures st.session.error == None && !st.session.isLoading
    ensures st.session.transactions == s.transactions
    ensures 0.0 <= st.session.balance <= 10.0 && IsFixed4(st.session.balance)
  {
    ConnectWith(s, Ok(Web3Service.ConnectWallet()), random)
  }

  /**
   * `disconnect` when the ledger's teardown ends with `ledger`: on success the session
   * forgets the address, history and balance; a thrown error changes nothing and is
   * only reported (it is not recorded in `error`).
   */
  function DisconnectWith(s: Session, ledger: Outcome): (st: Step)
    ensures ledger.Pass? ==>
      && st.session == s.(address := None, isConnected := false, transactions := [], balance := 0.0)
      && st.notice == Notice(InfoNotice, "Wallet disconnected", ShortNotice)
    ensures ledger.Fail? ==> st.session == s && st.notice.severity == ErrorNotice
  {
    match ledger
    case Pass =>
      Step(s.(address := None, isConnected := false, transactions := [], balance := 0.0),
           Notice(InfoNotice, "Wallet disconnected", ShortNotice))
    case Fail(message) =>
      Step(s, Notice(ErrorNotice, "Error disconnecting wallet: " + message, LongNotice))
  }

  /** `disconnect` against the mock ledger: exactly address, connection, history and balance are reset. */
  function Disconnect(s: Session): (st: Step)
    ensures st.session == s.(address := None, isConnected := false, transactions := [], balance := 0.0)
    ensures st.notice == Notice(InfoNotice, "Wallet disconnected", ShortNotice)
  {
    DisconnectWith(s, Web3Service.DisconnectWallet())
  }

  /** The checks of `sendTransaction`, in the order the source makes them. */
  function Validate(to: string, amount: real, balance: real): (err: Option<string>)
    ensures err == None <==> IsAddressShape(to) && amount > 0.0 && balance >= amount
    ensures !IsAddressShape(to) ==> err == Some(InvalidAddress)
    ensures IsAddressShape(to) && amount <= 0.0 ==> err == Some(InvalidAmount)
    ensures IsAddressShape(to) && amount > 0.0 && balance < amount ==> err == Some(InsufficientBalance)
  {
    if !IsAddressShape(to) then Some(InvalidAddress)
    else if amount <= 0.0 then Some(InvalidAmount)
    else if balance < amount then Some(InsufficientBalance)
    else None
  }

  /** Outcome of the synchronous part of `sendTransaction`. */
  datatype SendStart = Rejected(step: Step) | Awaiting(session: Session, call: PendingCall)

  /**
   * The part of `sendTransaction` before the ledger is awaited: a failed check ends the
   * operation with the error recorded and loading off; otherwise the store is loading
   * and the ledger is called with the balance read at this moment.
   */
  function BeginSend(s: Session, to: string, amount: real): (r: SendStart)
    ensures r.Rejected? <==> Validate(to, amount, s.balance).Some?
    ensures r.Rejected? ==>
      && r.step.session == s.(isLoading := false, error := Validate(to, amount, s.balance))
      && r.step.notice == Notice(ErrorNotice, "Transaction failed: " + Validate(to, amount, s.balance).value, LongNotice)
    ensures r.Awaiting? ==>
      && r.session == s.(isLoading := true, error := None)
      && r.call == PendingCall(to, amount, s.balance)
  {
    var t := s.(isLoading := true, error := None);
    match Validate(to, amount, s.balance)
    case Some(message) =>
      Rejected(Step(t.(error := Some(message), isLoading := false),
                    Notice(ErrorNotice, "Transaction failed: " + message, LongNotice)))
    case None =>
      Awaiting(t, PendingCall(to, amount, s.balance))
  }

  /** `[tx, ...history].slice(0, 5)`: the new entry first, then the newest of the old ones. */
  function Push(tx: Transaction, history: seq<Transaction>): (r: seq<Transaction>)
    ensures |r| == Min(|history| + 1, MaxHistory)
    ensures r[0] == tx && r[1..] == history[..|r| - 1]
  {
    Take([tx] + history, MaxHistory)
  }

  /** The content hash: "0x" and 64 random hexadecimal digits. */
  function ContentHash(digits: seq<HexDigit>): (h: string)
    requires |digits| == 64
    ensures |h| == 66 && StartsWith(h, "0x")
    ensures forall i :: 2 <= i < |h| ==> IsLowerHex(h[i])
  {
    var h := "0x" + HexString(digits);
    assert h[..2] == "0x";
    h
  }

  /**
   * The part of `sendTransaction` after the ledger answered `reply`: an id becomes a
   * Pending entry at the head of the history and a scheduled resolution that carries
   * the balance read before the call; an error is recorded. Loading ends either way.
   */
  function FinishSend(s: Session, call: PendingCall, reply: Result<string>, timestamp: int, hashDigits: seq<HexDigit>): (st: SendStep)
    requires |hashDigits| == 64
    ensures !st.session.isLoading
    ensures st.session.balance == s.balance && st.session.address == s.address
    ensures st.session.isConnected == s.isConnected
    ensures reply.Err? ==>
      && st.session == s.(isLoading := false, error := Some(reply.message))
      && st.timer == None
    ensures reply.Ok? ==>
      && st.session.error == s.error
      && |st.session.transactions| >= 1
      && st.session.transactions
           == Push(Transaction(reply.value, Pending, timestamp, call.to, call.amount, st.session.transactions[0].hash), s.transactions)
      && |st.session.transactions[0].hash| == 66 && StartsWith(st.session.transactions[0].hash, "0x")
      && st.timer == Some(Resolution(reply.value, call.amount, call.snapshot))
  {
    match reply
    case Ok(txId) =>
      var tx := Transaction(txId, Pending, timestamp, call.to, call.amount, ContentHash(hashDigits));
      SendStep(s.(transactions := Push(tx, s.transactions), isLoading := false),
               Notice(InfoNotice, "Transaction initiated: " + Abbreviate(txId), ShortNotice),
               Some(Resolution(txId, call.amount, call.snapshot)))
    case Err(message) =>
      SendStep(s.(error := Some(message), isLoading := false),
               Notice(ErrorNotice, "Transaction failed: " + message, LongNotice),
               None)
  }

  /** `sendTransaction(to, amount)` against the mock ledger, up to the point the timer is armed. */
  function SendTransaction(s: Session, to: string, amount: real, env: SendEnv): (st: SendStep)
    requires |env.hashDigits| == 64
    ensures !st.session.isLoading
    ensures st.session.balance == s.balance && st.session.address == s.address
    ensures st.session.isConnected == s.isConnected
    ensures Validate(to, amount, s.balance).Some? ==>
      && st.session == s.(isLoading := false, error := Validate(to, amount, s.balance))
      && st.timer == None
    ensures Validate(to, amount, s.balance).None? ==>
      && st.session.error == None
      && |st.session.transactions| >= 1
      && st.session.transactions == Push(st.session.transactions[0], s.transactions)
      && var tx := st.session.transactions[0];
         && Web3Service.SendTransaction(to, amount, env.idDigits) == Ok(tx.id)
         && tx.status == Pending && tx.to == to && tx.amount == amount && tx.timestamp == env.timestamp
         && WellFormed(tx)
         && st.timer == Some(Resolution(tx.id, amount, s.balance))
  {
    match BeginSend(s, to, amount)
    case Rejected(step) => SendStep(step.session, step.notice, None)
    case Awaiting(t, call) =>
      var reply := Web3Service.SendTransaction(call.to, call.amount, env.idDigits);
      assert reply.Ok?;
      FinishSend(t, call, reply, env.timestamp, env.hashDigits)
  }

  /** `transactions.map(tx => tx.id === txId ? {...tx, status} : tx)` */
  function MapStatus(history: seq<Transaction>, txId: string, status: TxStatus): (r: seq<Transaction>)
    ensures |r| == |history|
    ensures forall i :: 0 <= i < |r| ==>
      r[i] == history[i].(status := if history[i].id == txId then status else history[i].status)
  {
    if history == [] then []
    else
      var head := if history[0].id == txId then history[0].(status := status) else history[0];
      [head] + MapStatus(history[1..], txId, status)
  }

  /** `updateTransactionStatus(txId, status)`: only the history changes, and in it only statuses. */
  function UpdateTransactionStatus(s: Session, txId: string, status: TxStatus): (t: Session)
    ensures t == s.(transactions := t.transactions)
    ensures |t.transactions| == |s.transactions|
    ensures forall i :: 0 <= i < |t.transactions| ==>
      && t.transactions[i].(status := s.transactions[i].status) == s.transactions[i]
      && t.transactions[i].status == (if s.transactions[i].id == txId then status else s.transactions[i].status)
  {
    s.(transactions := MapStatus(s.transactions, txId, status))
  }

  /**
   * The body of the deferred timer: the transaction's status becomes the outcome, and
   * on success the balance becomes the balance read before the ledger call minus the
   * amount, to four digits; the balance at the time the timer fires plays no part.
   */
  function Resolve(s: Session, r: Resolution, success: bool): (st: Step)
    ensures st.session.transactions == MapStatus(s.transactions, r.txId, if success then Success else Failed)
    ensures success ==> st.session.balance == ToFixed4(r.snapshot - r.amount)
    ensures !success ==> st.session.balance == s.balance
    ensures st.session == s.(transactions := st.session.transactions, balance := st.session.balance)
    ensures st.notice.severity == (if success then SuccessNotice else ErrorNotice)
  {
    var t := UpdateTransactionStatus(s, r.txId, if success then Success else Failed);
    if success then
      Step(UpdateBalance(t, Explicit(ToFixed4(r.snapshot - r.amount))),
           Notice(SuccessNotice, "Transaction " + Abbreviate(r.txId) + " completed", LongNotice))
    else
      Step(t, Notice(ErrorNotice, "Transaction " + Abbreviate(r.txId) + " failed", LongNotice))
  }
}

=== FILE: wallet_types.dfy ===
/** The records the wallet works with: a transaction and the session state. */
module WalletTypes {
  import opened Results

  /** The three states of a transaction's lifecycle. */
  datatype TxStatus = Pending | Success | Failed

  /** The status as the UI spells it. */
  function StatusName(st: TxStatus): string {
    match st
    case Pending => "Pending"
    case Success => "Success"
    case Failed => "Failed"
  }

  /** Distinct statuses are spelled differently, so a status can be read back from its name. */
  lemma StatusNamesDistinct(x: TxStatus, y: TxStatus)
    ensures StatusName(x) == StatusName(y) <==> x == y
  {
    if x != y {
      assert StatusName(x)[0] != StatusName(y)[0];
    }
  }

  /** One submitted transaction; `timestamp` is milliseconds since the epoch, `amount` is in ether. */
  datatype Transaction = Transaction(
    id: string,
    status: TxStatus,
    timestamp: int,
    to: string,
    amount: real,
    hash: string)

  /**
   * The session a wallet store holds. `balance` is the number its text spells:
   * the store keeps it as text with four fractional digits and compares it after `parseFloat`.
   */
  datatype Session = Session(
    address: Option<string>,
    isConnected: bool,
    transactions: seq<Transaction>,
    isLoading: bool,
    error: Option<string>,
    balance: real)
}

=== FILE: web3_service.dfy ===
/** The mock ledger the store talks to. It keeps no state; delays are not modelled. */
module Web3Service {
  import opened Results
  import opened Text

  /** The account every connection reports. */
  const MockAddress: string := "0x742d35Cc6634C0532925a3b844Bc454e4438f44e"

  const InvalidParameters: string := "Invalid transaction parameters"

  /** The longest run of random hexadecimal digits an id carries. */
  const IdDigits: nat := 40

  /** `connectWallet`: always the same account, shaped like an Ethereum address. */
  function ConnectWallet(): (address: string)
    ensures StartsWith(address, "0x") && |address| == 42
  {
    assert MockAddress[0] == '0' && MockAddress[1] == 'x';
    assert MockAddress[..2] == "0x";
    MockAddress
  }

  /**
   * `sendTransaction(to, amount)`. `fraction` holds the hexadecimal digits of the random
   * number's fraction, as `Math.random().toString(16)` prints them after "0.".
   */
  function SendTransaction(to: string, amount: real, fraction: seq<HexDigit>): (r: Result<string>)
    ensures r.Err? <==> to == "" || amount <= 0.0
    ensures r.Err? ==> r.message == InvalidParameters
    ensures r.Ok? ==> StartsWith(r.value, "0x") && 2 <= |r.value| <= 2 + IdDigits
    ensures r.Ok? ==> forall i :: 2 <= i < |r.value| ==> IsLowerHex(r.value[i])
  {
    if to == "" || amount <= 0.0 then Err(InvalidParameters)
    else Ok("0x" + HexString(Take(fraction, IdDigits)))
  }

  /** `disconnectWallet`: there is nothing to tear down, so it completes normally. */
  function DisconnectWallet(): (r: Outcome)
    ensures r.Pass?
  {
    Pass
  }
}
